=== FILE: README.md ===
# Heap priority queue with a value lookup table

This project models `HeapPriorityQueue` from `priority_queue.go`. It is a
generic priority queue over a binary heap kept in a slice, plus a map from
each value to its slice index so that `Update` can find an entry. The heap
type is fixed at construction: `MinHeap` keeps the smallest priority at
index 0, and `MaxHeap` keeps the largest. The queue's `Len`, `Less`, `Swap`,
`Push` and `Pop` methods implement Go's `heap.Interface`. Its public
operations are `Put`, `Get`, `GetAndPop`, `IsEmpty`, `Update`, `Clear` and
`BatchPut`. Of these, `Put`, `GetAndPop`, `Update` and `BatchPut` call the
`container/heap` algorithms; `Get`, `IsEmpty` and `Clear` read or reset the
state directly. The model writes those algorithms out as well (`up`,
`down`, `Fix`, `Push`, `Pop`), because every proof about the queue depends
on them.

The state is an immutable record `Queue(items, lookup, kind)`, and every
operation is a pure function from state to state.

Modules:

- `HeapState` (heap_state.dfy) holds the state, the `heap.Interface`
  methods and the invariants:
  - `HeapOk`: no entry is `Less` than its parent.
  - `LookupOk`: the lookup table is exactly the inverse of the slice.
  - `LookupSound`: every lookup key names a slot holding that value. This
    weaker invariant survives duplicate `Put`s.
- `ContainerHeap` (container_heap.dfy) holds the sift-up and sift-down
  algorithms, with proofs that they restore the heap order.
- `PriorityQueue` (priority_queue.dfy) holds the public operations.
- `Findings` (findings.dfy) holds the two places where the code does not do
  what it evidently intends.
- `Scenarios` (scenarios.dfy) holds properties that span several calls:
  - from a queue in heap order, popping until empty yields every entry in
    priority order;
  - on a queue with an exact lookup table, `Update` is idempotent;
  - a duplicate `Put` leaves one of the two entries with no lookup key;
  - the worked min-heap and max-heap examples.

Both heap types are reduced to one order through
`Rank(MinHeap, p) = p` and `Rank(MaxHeap, p) = -p`, so every heap
invariant is a min-heap invariant on the rank. Priorities are unbounded
integers. `container/heap` is Go's standard library, so the rows for its
algorithms cite the lines in `priority_queue.go` that call them. Its
behaviour is as follows:
- `up` stops when the parent index `(j-1)/2`, computed with truncating
  division, equals `j`. That happens only at index 0.
- `down` picks the right child only when it is strictly `Less` than the
  left child.
- `Fix` calls `up` only when `down` did not move the entry.
- `Pop` swaps slot 0 with the last slot, sifts down within the first `n-1`
  slots, and then calls the queue's own `Pop`.

## Model

| member | source | states |
|---|---|---|
| HeapState.Len | priority_queue.go:54-58 | The length of the slice; when the lookup table is exact, it equals the number of lookup keys. |
| HeapState.LookupOkSize | priority_queue.go:36-40 | An exact lookup table has exactly one key per slice slot. |
| HeapState.Less | priority_queue.go:60-71 | For MinHeap, slot i is Less than slot j iff its priority is smaller; for MaxHeap, iff it is larger. Both cases mean a strictly smaller rank. |
| HeapState.LessIsStrict | priority_queue.go:60-71 | Less is irreflexive, asymmetric and transitive. Two slots neither of which is Less than the other hold equal priorities. |
| HeapState.Swap | priority_queue.go:73-83 | Slots i and j are exchanged and nothing else in the slice changes. The lookup writes follow Go's order: slot j's old value is pointed at i first, then slot i's old value at j, so when both slots hold the same value its key ends at j. Every other key keeps its slot, and the keys become the old keys plus both values. The multiset of entries is kept, as are a sound lookup table and an exact lookup table with the same keys. |
| HeapState.SwapKeepsLookup | priority_queue.go:79-82 | Re-pointing the two swapped values keeps the lookup table sound, and keeps it exact with unchanged keys. |
| HeapState.Push | priority_queue.go:85-96 | The entry is appended as the last slot, and its value maps to the old length. Earlier slots are unchanged. An exact table stays exact when the value was not a key before. |
| HeapState.Pop | priority_queue.go:98-111 | Returns the last entry and removes it with its key. Earlier slots are unchanged. The removed value is no longer a key, and an exact table stays exact with that key deleted. |
| HeapState.SwapTwice | priority_queue.go:73-83 | With an exact lookup table, swapping the same two slots twice gives back the original state, lookup table included. |
| HeapState.PopUndoesPush | priority_queue.go:85-111 | The slice-level Pop after the slice-level Push of a value with no key returns that entry and the original state. |
| HeapState.RootIsExtremal | priority_queue.go:119-127 | Under the heap order, no slot is Less than slot 0: its rank is no greater than any other. |
| ContainerHeap.Up | priority_queue.go:116 | Sift-up from slot j leaves every slot after j unchanged, keeps the multiset of entries, and keeps the lookup table sound, or exact with the same keys. |
| ContainerHeap.UpRestoresHeap | priority_queue.go:116 | If the heap order fails at most on the edge into slot j, and the parent of j ranks no later than j's children, sift-up from j restores it on the whole prefix. Without the second condition the result can fail the heap order. |
| ContainerHeap.Down | priority_queue.go:131 | Sift-down stays within the first n slots. It reports a stop slot no earlier than i, and changes nothing when it stops at i. It keeps the multiset and the lookup invariants. |
| ContainerHeap.DownRestoresHeap | priority_queue.go:131 | If the heap order fails at most on the edges into and out of slot i, and the parent of i ranks no later than i's children, then sift-down from i restores it on the prefix when the entry moves, and leaves only the edge into i broken when it stays. The second condition is the one BatchPut's ascending loop breaks (Findings.BatchPutBreaksHeap). |
| ContainerHeap.Fix | priority_queue.go:150 | Fix at slot i restores the heap order whenever the order fails only on the edges into and out of i and the parent of i ranks no later than i's children. That second condition is the one BatchPut's ascending loop breaks (Findings.BatchPutBreaksHeap). It keeps the multiset and the lookup invariants. |
| ContainerHeap.Push | priority_queue.go:114-117 | Adds exactly the new entry and keeps the heap order. The value becomes a key, and an exact table stays exact when the value was new. |
| ContainerHeap.Pop | priority_queue.go:129-136 | Returns the old root and removes exactly that entry, and the returned value has no key afterwards, even with duplicate values. Keeps the heap order, and keeps an exact table exact minus the returned value's key. |
| ContainerHeap.PopTakesRoot | priority_queue.go:99-111 | After swapping the root with the last slot and sifting down within the other slots, the slice-level Pop returns the old root. |
| PriorityQueue.New | priority_queue.go:42-52 | A new queue is empty, satisfies both invariants, and has the requested heap type. |
| PriorityQueue.Put | priority_queue.go:113-117 | Length grows by one and exactly the new entry is added. The value becomes a key. Heap order and a sound lookup table are kept; an exact table stays exact when the value was not yet queued. |
| PriorityQueue.Get | priority_queue.go:119-127 | Returns nothing iff the queue is empty. Otherwise it returns slot 0, and under the heap order no entry ranks ahead of it. |
| PriorityQueue.GetAndPop | priority_queue.go:129-136 | On a non-empty queue it returns slot 0, which ranks no later than any entry under the heap order. It removes exactly that entry and always deletes that value's key. It keeps both invariants, and with an exact table no other key changes. |
| PriorityQueue.IsEmpty | priority_queue.go:138-141 | True iff Get finds nothing; with an exact table, iff the table is empty. |
| PriorityQueue.Update | priority_queue.go:143-153 | A missing value or an unchanged priority leaves the queue as it is. Otherwise, with an exact lookup table, the value's entry becomes (value, priority), with every other entry kept. Heap order and both lookup invariants are preserved. |
| PriorityQueue.UpdateChanged | priority_queue.go:148-150 | Writing a new priority into the slot, then calling Fix on it, keeps the invariants and leaves that value's slot holding the new entry. |
| PriorityQueue.ChangeIsFixReady | priority_queue.go:149 | Changing one slot's priority in a heap breaks the order at most on that slot's own edges. |
| PriorityQueue.SameEntriesSameSlotContent | priority_queue.go:146-150 | Two states with the same entries and exact tables hold the same entry at the slot each names for a value. |
| PriorityQueue.Clear | priority_queue.go:155-161 | Afterwards the queue is empty, satisfies both invariants, has an empty lookup table, and Get finds nothing. |
| PriorityQueue.AssignIndicesAt | priority_queue.go:174-182 | After the lookup copy and extension, a value is a key iff it was one or is in the run. A value not in the run keeps its index. A value in the run gets the old length plus the position of its last occurrence. |
| PriorityQueue.Append | priority_queue.go:169-183 | The run is appended with earlier slots unchanged. The lookup table stays sound, and it stays exact when the run's values are distinct and new. |
| PriorityQueue.FixFrom | priority_queue.go:185-188 | Fix on each slot from i on keeps the multiset and both lookup invariants. It does not promise the heap order. |
| PriorityQueue.BatchPut | priority_queue.go:163-189 | An empty run changes nothing. Otherwise exactly the run's entries are added and the lookup table is kept sound. It is kept exact when the run's values are distinct and not already queued. |
| PriorityQueue.UpFrom | priority_queue.go:185-188 | Sift-up on each slot from i on, starting from a prefix in heap order, gives heap order on the whole slice. |
| PriorityQueue.BatchPutRepaired | priority_queue.go:163-189 | BatchPut with each new slot sifted up: adds exactly the run and keeps the heap order. |
| PriorityQueue.TryGetAndPop | priority_queue.go:129-136 | GetAndPop as the nil check intends: None iff the queue is empty, with the queue left unchanged. Otherwise it returns the root, removes exactly it, and keeps both invariants. |
| Findings.GetAndPopAsWritten | priority_queue.go:129-136 | On an empty queue the call ends in an index-out-of-range panic, and only then. Every other outcome carries slot 0, never nil. |
| Findings.EmptyGetAndPopPanics | priority_queue.go:132-134 | The nil branch is never taken: an empty queue panics before it, and every other queue yields an entry. |
| Findings.FixLeafStays | priority_queue.go:187 | Fix on a childless slot that is not Less than its parent changes nothing. |
| Findings.BatchPutBreaksHeap | priority_queue.go:185-188 | Priorities 5, 9, 7, 1 batched into an empty min-heap end up as 5, 1, 7, 9. The heap order fails, and GetAndPop returns 5 while 1 is queued. |
| Findings.BatchPutRepairedKeepsHeap | priority_queue.go:185-188 | The same run through the repaired BatchPut is in heap order, and GetAndPop returns priority 1. |
| Scenarios.Drain | priority_queue.go:129-136 | From a queue in heap order, calling GetAndPop until the queue is empty yields exactly the queued entries, ascending in rank: ascending priority for MinHeap, descending for MaxHeap. |
| Scenarios.PopReturnsSmallest | priority_queue.go:129-136 | From a queue in heap order, when one entry ranks strictly ahead of all others, GetAndPop returns it. |
| Scenarios.PopSmallest | priority_queue.go:129-136 | ... and leaves exactly the other entries, with both invariants. |
| Scenarios.UpdateIdempotent | priority_queue.go:143-153 | On a queue with an exact lookup table, repeating an Update with the same value and priority changes nothing. |
| Scenarios.UpdateSingle | priority_queue.go:143-153 | Updating the only queued entry leaves just the updated entry, and GetAndPop returns it. |
| Scenarios.DuplicatePutOrphansEntry | priority_queue.go:93-94 | Putting one value twice leaves two entries but a single lookup key, so the table is no longer exact. |
| Scenarios.DuplicatePutSiftUp | priority_queue.go:81-94 | In a max-heap, Put(v, 1) then Put(v, 2) leaves (v, 2) at the root and (v, 1) in slot 1, with the single key pointing at slot 1: the newer entry is the one without a key. |
| Scenarios.SecondPutSwapsRoot | priority_queue.go:74-94 | From the one-entry max-heap holding (v, 1), Put(v, 2) appends, sifts up with one Swap(0, 1), and leaves the key on slot 1. |
| Scenarios.DuplicatePutPassesOlder | priority_queue.go:81-94 | In a max-heap holding (w, 5), (v, 1), (x, 0), Put(v, 9) gives [(v, 9), (w, 5), (x, 0), (v, 1)] with v's key at slot 0: the newer entry passed the older one and still holds the key, because its last swap was with (w, 5). |
| Scenarios.SwapWithOlder | priority_queue.go:81-82 | The new (v, 9) in slot 3 is Less than the older (v, 1) in slot 1; swapping them leaves v's key at 3, the slot of the older entry. |
| Scenarios.SwapWithRoot | priority_queue.go:81-82 | (v, 9) in slot 1 is Less than (w, 5) at the root; swapping them puts v's key at the root, and sift-up stops there. |
| Scenarios.PutIsPushThenUp | priority_queue.go:113-117 | Put is the slice-level Push followed by a sift-up from the new slot. |
| Scenarios.UpStep | priority_queue.go:116 | A slot Less than its parent is swapped with it, and sift-up continues from the parent. |
| Scenarios.PushAfterThree | priority_queue.go:89-94 | Pushing (v, 9) onto three entries appends it as slot 3. |
| Scenarios.UpdateAfterDuplicatePut | priority_queue.go:143-153 | In that state, Update(v, 0) changes the older entry in slot 1, not the root: the newer entry cannot be reached by the next Update. |
| Scenarios.UpdateSiftsDuplicate | priority_queue.go:143-153 | In that state, Update(v, 5) sifts the older entry up to the root, giving [(v, 5), (v, 2)], and the key stays on slot 1, which now holds the newer entry. |
| Scenarios.UpdateTwiceAfterDuplicatePut | priority_queue.go:143-153 | Repeating Update(v, 5) on that result changes the state again, to [(v, 5), (v, 5)]: with a duplicate value, Update is not idempotent. |
| Scenarios.PutFresh | priority_queue.go:113-117 | Putting a value that is not a key keeps both invariants and adds exactly that key. |
| Scenarios.ThreePutsValid | priority_queue.go:113-117 | Three Puts of distinct values into an empty queue keep both invariants. |
| Scenarios.ThreePutsEntries | priority_queue.go:113-117 | Three Puts into an empty queue hold exactly the three entries. |
| Scenarios.PutAdds | priority_queue.go:113-117 | Put adds exactly its entry to the multiset of entries. |
| Scenarios.MinHeapScenario | priority_queue.go:113-153 | In a min-heap, after Put(v1, 5), Put(v2, 3), Put(v3, 7), GetAndPop returns (v2, 3) and then (v1, 5). After Update(v3, 1), GetAndPop returns (v3, 1). |
| Scenarios.MinHeapExample | priority_queue.go:113-136 | The same with the values "task1", "task2", "task3": the first GetAndPop returns ("task2", 3). |
| Scenarios.MaxHeapScenario | priority_queue.go:113-136 | In a max-heap, after Put(a, 1), Put(b, 9), Put(c, 5), GetAndPop returns (b, 9). |
| Scenarios.MaxHeapExample | priority_queue.go:113-136 | The same with the values 10, 20, 30: GetAndPop returns (20, 9). |
| Scenarios.ClearEmpties | priority_queue.go:155-161 | After Clear, the queue is empty, Get finds nothing, and draining yields nothing. |

## Left out

- Atomic pointer loads and stores, and `unsafe.Pointer` publication, are
  not modelled. The model is single-threaded, and each operation is one
  state transition.
- Pointer aliasing is not modelled: entries are values, not `*Item`
  pointers. In the source, `Update` writes the priority into the shared
  `*Item`, and `Get` and `GetAndPop` hand that pointer to the caller. A
  caller holding the pointer could therefore change a priority behind the
  heap's back.
- Priorities are unbounded integers. `constraints.Ordered` also admits
  floating-point types, whose NaN breaks `Less`, and strings. Neither is
  modelled.
- The `return false` fallback in `Less` (priority_queue.go:70) is not
  modelled. Go's `HeapType` is an `int` (priority_queue.go:22), and `New`
  accepts any value (priority_queue.go:43). With a value other than
  `MinHeap` or `MaxHeap`, such as `HeapType(2)`, `Less` is always false:
  `Put` only appends, and `GetAndPop` returns slot 0 and moves the last
  entry there. The model's heap type is a datatype with just the two
  named constants, so it admits only those two.
- The `PriorityQueue` interface declaration (priority_queue.go:10-19) only
  lists the methods, so it needs no model.
- `bench_test.go` is left out. It is benchmark code, and it calls an
  `Upsert` method that the queue does not define.
- A nil `*Item` passed to `BatchPut` would panic in the source. The model's
  run holds entries, so nil cannot occur.
- PriorityQueue.BatchPut: its contract has no heap-order clause, because the code as
  written does not keep the heap order (see Findings). `BatchPutRepaired`
  carries that clause.
- PriorityQueue.Update: it requires that every lookup index names an existing slot. The
  source indexes the slice with the looked-up index unchecked. Every state
  reachable through the public operations satisfies this, because
  `LookupSound` holds throughout.
- PriorityQueue.GetAndPop: it requires a non-empty queue. On an empty queue the source
  panics inside `heap.Pop`, which `Findings.GetAndPopAsWritten` models;
  `TryGetAndPop` is the total version.
- The min-heap and max-heap scenarios are stated for distinct values. With
  a repeated value, one of the two entries loses its lookup key, as
  `DuplicatePutOrphansEntry` shows. Each `Swap` writes the key of the
  entry that moved up first and the key of the entry that moved down
  second. So the key ends on the older entry only when the newer entry's
  last sift-up swap was with the older entry (`DuplicatePutSiftUp`).
  Otherwise it follows the newer entry, even when the newer entry passed
  the older one on its way up (`DuplicatePutPassesOlder`).
  Later Updates can move the key again, and Update is then not idempotent
  (`UpdateSiftsDuplicate`, `UpdateTwiceAfterDuplicatePut`), so
  `UpdateIdempotent` is stated for an exact lookup table only.

## Findings

| source | as written | input that shows it | evidently intended | confidence | as-written member | corrected member |
|---|---|---|---|---|---|---|
| priority_queue.go:130-134 | `GetAndPop` calls `heap.Pop` first. On an empty queue, `heap.Pop` calls `Swap(0, -1)` and panics with index out of range, so the `item == nil` branch is dead. | `GetAndPop()` on a new, empty queue | return nil when the queue is empty | not executed | Findings.GetAndPopAsWritten, Findings.EmptyGetAndPopPanics | PriorityQueue.TryGetAndPop |
| priority_queue.go:186-188 | `BatchPut` calls `heap.Fix` on each appended index in ascending order. When `down` moves an entry, `Fix` skips `up`, so a small entry pulled up into a lower slot is never sifted past its parent. | `BatchPut` of priorities 5, 9, 7, 1 into an empty MinHeap gives 5, 1, 7, 9; `GetAndPop` then returns 5 | the heap order holds after `BatchPut`, as after a sequence of `Put`s | not executed | Findings.BatchPutBreaksHeap, PriorityQueue.BatchPut | PriorityQueue.BatchPutRepaired, Findings.BatchPutRepairedKeepsHeap |

=== FILE: container_heap.dfy ===
/** The algorithms of Go's container/heap package that the queue calls:
    up, down, Fix, Push and Pop, written over the queue state and its
    heap.Interface methods, with the proofs that they restore the heap order
    and keep the lookup table consistent. */
module ContainerHeap {
  import opened HeapState

  /** Sift the entry at slot j up while it is Less than its parent. Go's
      loop stops when the parent index equals j, which happens only at the
      root. */
  function Up<T>(q: Queue<T>, j: nat): (r: Queue<T>)
    requires j < |q.items|
    ensures r.kind == q.kind && |r.items| == |q.items|
    ensures forall k :: j < k < |q.items| ==> r.items[k] == q.items[k]
    ensures multiset(r.items) == multiset(q.items)
    ensures q.lookup.Keys <= r.lookup.Keys
    ensures LookupSound(q) ==> LookupSound(r)
    ensures LookupOk(q) ==> LookupOk(r) && r.lookup.Keys == q.lookup.Keys
    decreases j
  {
    if j == 0 then q
    else
      var i := Parent(j);
      if !Less(q, j, i) then q
      else Up(Swap(q, i, j), i)
  }

  /** Sift the entry at slot i down within the prefix of length n, swapping it
      with its Less child while that child is Less than it. Returns the new
      state and the slot where the entry stopped; Go's down reports whether
      that slot is past i. */
  function Down<T>(q: Queue<T>, i: nat, n: nat): (r: (Queue<T>, nat))
    requires i < |q.items| && n <= |q.items|
    ensures r.1 >= i && r.1 < |q.items|
    ensures r.1 == i ==> r.0 == q
    ensures r.0.kind == q.kind && |r.0.items| == |q.items|
    ensures forall k :: n <= k < |q.items| ==> r.0.items[k] == q.items[k]
    ensures multiset(r.0.items) == multiset(q.items)
    ensures q.lookup.Keys <= r.0.lookup.Keys
    ensures LookupSound(q) ==> LookupSound(r.0)
    ensures LookupOk(q) ==> LookupOk(r.0) && r.0.lookup.Keys == q.lookup.Keys
    decreases n - i
  {
    var j1 := 2 * i + 1;
    if j1 >= n then (q, i)
    else
      var j := if j1 + 1 < n && Less(q, j1 + 1, j1) then j1 + 1 else j1;
      if !Less(q, j, i) then (q, i)
      else Down(Swap(q, i, j), j, n)
  }

  /** Re-establish the heap order after the entry at slot i changed: sift
      down, and sift up only when the entry did not move down. */
  function Fix<T>(q: Queue<T>, i: nat): (r: Queue<T>)
    requires i < |q.items|
    ensures r.kind == q.kind && |r.items| == |q.items|
    ensures multiset(r.items) == multiset(q.items)
    ensures LookupSound(q) ==> LookupSound(r)
    ensures LookupOk(q) ==> LookupOk(r) && r.lookup.Keys == q.lookup.Keys
    ensures FixReady(q, i, |q.items|) ==> HeapOk(r)
  {
    var (d, e) := Down(q, i, |q.items|);
    assert FixReady(q, i, |q.items|) ==> HeapOk(if e > i then d else Up(d, i)) by {
      if FixReady(q, i, |q.items|) {
        FixRestoresHeap(q, i);
      }
    }
    if e > i then d else Up(d, i)
  }

  /** heap.Push: append, then sift the new last entry up. */
  function Push<T>(q: Queue<T>, it: Item<T>): (r: Queue<T>)
    ensures r.kind == q.kind && |r.items| == |q.items| + 1
    ensures multiset(r.items) == multiset(q.items) + multiset{it}
    ensures it.value in r.lookup
    ensures LookupSound(q) ==> LookupSound(r)
    ensures HeapOk(q) ==> HeapOk(r)
    ensures LookupOk(q) && it.value !in q.lookup ==> LookupOk(r) && r.lookup.Keys == q.lookup.Keys + {it.value}
  {
    var p := HeapState.Push(q, it);
    var n := |q.items|;
    assert HeapOk(q) ==> HeapOk(Up(p, n)) by {
      if HeapOk(q) {
        PushIsUpReady(q, it);
        UpRestoresHeap(p, n, n + 1);
      }
    }
    Up(p, n)
  }

  /** heap.Pop: move the last entry to the root, sift it down over the
      remaining prefix, then remove the old root from the end of the slice. */
  function Pop<T>(q: Queue<T>): (r: (Queue<T>, Item<T>))
    requires |q.items| > 0
    ensures r.1 == q.items[0]
    ensures r.0.kind == q.kind && |r.0.items| == |q.items| - 1
    ensures multiset(r.0.items) + multiset{r.1} == multiset(q.items)
    ensures LookupSound(q) ==> LookupSound(r.0)
    ensures HeapOk(q) ==> HeapOk(r.0)
    ensures r.1.value !in r.0.lookup
    ensures LookupOk(q) ==> LookupOk(r.0) && r.0.lookup.Keys == q.lookup.Keys - {r.1.value}
  {
    var n := |q.items| - 1;
    var d := Down(Swap(q, 0, n), 0, n).0;
    PopTakesRoot(q);
    assert HeapOk(q) ==> HeapOk(HeapState.Pop(d).0) by {
      if HeapOk(q) {
        PopRestoresHeap(q);
      }
    }
    HeapState.Pop(d)
  }

  /** The entry the slice-level Pop removes after the swap and sift-down is
      the old root: the sift-down stays within the first n slots. */
  lemma PopTakesRoot<T>(q: Queue<T>)
    requires |q.items| > 0
    ensures HeapState.Pop(Down(Swap(q, 0, |q.items| - 1), 0, |q.items| - 1).0).1 == q.items[0]
  {
    var n := |q.items| - 1;
    var d := Down(Swap(q, 0, n), 0, n).0;
    assert d.items[n] == Swap(q, 0, n).items[n];
  }

  // ---------------------------------------------------------------------
  // Proofs of heap order

  /** Sifting up from j repairs a prefix whose only defect is the edge into j,
      provided the parent of j ranks no later than j's children. */
  lemma {:induction false} UpRestoresHeap<T>(q: Queue<T>, j: nat, n: nat)
    requires j < n && UpReady(q, j, n)
    ensures HeapUpTo(Up(q, j), n)
    decreases j
  {
    if j > 0 {
      var i := Parent(j);
      ChildrenOf(j, i);
      if Less(q, j, i) {
        var s := Swap(q, i, j);
        forall k | 0 < k < n && k != i
          ensures Key(s, Parent(k)) <= Key(s, k)
        {
          ChildrenOf(k, Parent(k));
          if k == j {
          } else if Parent(k) == j {
            assert Key(s, j) == Key(q, i);
          } else if Parent(k) == i {
            assert Key(s, i) == Key(q, j);
          } else {
          }
        }
        forall c | 0 < i && 0 < c < n && Parent(c) == i
          ensures Key(s, Parent(i)) <= Key(s, c)
        {
          ChildrenOf(i, Parent(i));
          ChildrenOf(c, i);
          assert Key(q, Parent(i)) <= Key(q, i);
        }
        UpRestoresHeap(s, i, n);
      }
    }
  }

  /** The child of i that Down picks has the least rank among i's children. */
  lemma DownPicksLeastChild<T>(q: Queue<T>, i: nat, n: nat, j: nat)
    requires n <= |q.items| && 2 * i + 1 < n
    requires j == if 2 * i + 2 < n && Less(q, 2 * i + 2, 2 * i + 1) then 2 * i + 2 else 2 * i + 1
    ensures 0 < j < n && Parent(j) == i
    ensures forall c :: 0 < c < n && Parent(c) == i ==> Key(q, j) <= Key(q, c)
  {
    ChildrenOf(j, i);
    forall c | 0 < c < n && Parent(c) == i
      ensures Key(q, j) <= Key(q, c)
    {
      ChildrenOf(c, i);
    }
  }

  /** One step of sift-down: swapping i with its least child j, which is Less
      than i, leaves only the edges into and out of j to repair, and the edge
      into j holds already. */
  lemma DownStep<T>(q: Queue<T>, i: nat, j: nat, n: nat)
    requires FixReady(q, i, n) && i < n
    requires 0 < j < n && Parent(j) == i && Key(q, j) < Key(q, i)
    requires forall c :: 0 < c < n && Parent(c) == i ==> Key(q, j) <= Key(q, c)
    ensures FixReady(Swap(q, i, j), j, n)
    ensures Key(Swap(q, i, j), i) < Key(Swap(q, i, j), j)
  {
    var s := Swap(q, i, j);
    forall k | 0 < k < n && k != j && Parent(k) != j
      ensures Key(s, Parent(k)) <= Key(s, k)
    {
      ChildrenOf(k, Parent(k));
      if k == i {
        assert Key(q, Parent(i)) <= Key(q, j);
      } else if Parent(k) == i {
        assert Key(s, i) == Key(q, j);
      } else {
        assert Key(s, k) == Key(q, k);
        assert Key(s, Parent(k)) == Key(q, Parent(k));
      }
    }
    forall c | 0 < c < n && Parent(c) == j
      ensures Key(s, Parent(j)) <= Key(s, c)
    {
      ChildrenOf(c, j);
      assert Key(s, c) == Key(q, c);
    }
  }

  /** When Down stops at i because no child is Less than it, only the edge
      into i may be broken. */
  lemma DownStop<T>(q: Queue<T>, i: nat, n: nat)
    requires FixReady(q, i, n)
    requires forall c :: 0 < c < n && Parent(c) == i ==> Key(q, i) <= Key(q, c)
    ensures UpReady(q, i, n)
  {
  }

  /** Sifting down from i repairs a prefix whose only defects are the edges
      into and out of i, provided the parent of i ranks no later than i's
      children: when the entry moves, the whole prefix is a heap; when it
      stays, only the edge into i may remain broken. BatchPut's ascending
      Fix loop breaks that proviso (see Findings.BatchPutBreaksHeap). */
  lemma {:induction false} DownRestoresHeap<T>(q: Queue<T>, i: nat, n: nat)
    requires i < |q.items| && FixReady(q, i, n)
    ensures Down(q, i, n).1 == i ==> UpReady(Down(q, i, n).0, i, n)
    ensures Down(q, i, n).1 > i ==> HeapUpTo(Down(q, i, n).0, n)
    decreases n - i
  {
    var j1 := 2 * i + 1;
    if j1 >= n {
      forall c | 0 < c < n
        ensures Parent(c) != i
      {
        ChildrenOf(c, i);
      }
      DownStop(q, i, n);
    } else {
      var j := if j1 + 1 < n && Less(q, j1 + 1, j1) then j1 + 1 else j1;
      DownPicksLeastChild(q, i, n, j);
      if !Less(q, j, i) {
        DownStop(q, i, n);
      } else {
        var s := Swap(q, i, j);
        DownStep(q, i, j, n);
        DownRestoresHeap(s, j, n);
        var (d, e) := Down(s, j, n);
        assert Down(q, i, n) == (d, e);
        if e == j {
          assert d == s;
          assert Key(d, Parent(j)) <= Key(d, j);
        }
      }
    }
  }

  lemma FixRestoresHeap<T>(q: Queue<T>, i: nat)
    requires i < |q.items| && FixReady(q, i, |q.items|)
    ensures var (d, e) := Down(q, i, |q.items|); HeapOk(if e > i then d else Up(d, i))
  {
    var (d, e) := Down(q, i, |q.items|);
    DownRestoresHeap(q, i, |q.items|);
    if e == i {
      UpRestoresHeap(d, i, |q.items|);
      HeapOkIsHeapUpTo(Up(d, i));
    } else {
      HeapOkIsHeapUpTo(d);
    }
  }

  lemma PushIsUpReady<T>(q: Queue<T>, it: Item<T>)
    requires HeapOk(q)
    ensures UpReady(HeapState.Push(q, it), |q.items|, |q.items| + 1)
  {
    var p := HeapState.Push(q, it);
    var n := |q.items|;
    forall c | 0 < c < n + 1
      ensures Parent(c) < n
    {
      ChildrenOf(c, Parent(c));
    }
  }

  /** Moving the last entry to the root leaves a prefix, one shorter, whose
      only defects are the root's edges. */
  lemma PopSwapIsFixReady<T>(q: Queue<T>)
    requires |q.items| > 0 && HeapOk(q)
    ensures FixReady(Swap(q, 0, |q.items| - 1), 0, |q.items| - 1)
  {
    var n := |q.items| - 1;
    var s := Swap(q, 0, n);
    forall k | 0 < k < n && Parent(k) != 0
      ensures Key(s, Parent(k)) <= Key(s, k)
    {
      ChildrenOf(k, Parent(k));
      assert !Less(q, k, Parent(k));
      assert s.items[k] == q.items[k];
      assert s.items[Parent(k)] == q.items[Parent(k)];
    }
  }

  /** Dropping the last slot keeps a heap order that held on the prefix. */
  lemma PopLastKeepsHeap<T>(d: Queue<T>)
    requires |d.items| > 0 && HeapUpTo(d, |d.items| - 1)
    ensures HeapOk(HeapState.Pop(d).0)
  {
    var r := HeapState.Pop(d).0;
    forall k | 0 < k < |r.items|
      ensures !Less(r, k, Parent(k))
    {
      ChildrenOf(k, Parent(k));
      assert r.items[k] == d.items[k];
      assert r.items[Parent(k)] == d.items[Parent(k)];
    }
  }

  /** Sifting the root down repairs a prefix whose only defects are the
      root's edges: the root has no edge into it. */
  lemma SiftRootRestoresHeap<T>(s: Queue<T>, n: nat)
    requires n < |s.items| && FixReady(s, 0, n)
    ensures HeapUpTo(Down(s, 0, n).0, n)
  {
    DownRestoresHeap(s, 0, n);
    var (d, e) := Down(s, 0, n);
    if e == 0 {
      assert UpReady(d, 0, n);
      assert forall k :: 0 < k < n ==> Key(d, Parent(k)) <= Key(d, k);
    }
  }

  lemma PopRestoresHeap<T>(q: Queue<T>)
    requires |q.items| > 0 && HeapOk(q)
    ensures HeapOk(HeapState.Pop(Down(Swap(q, 0, |q.items| - 1), 0, |q.items| - 1).0).0)
  {
    var n := |q.items| - 1;
    var s := Swap(q, 0, n);
    PopSwapIsFixReady(q);
    SiftRootRestoresHeap(s, n);
    PopLastKeepsHeap(Down(s, 0, n).0);
  }
}

=== FILE: findings.dfy ===
/** Two places where the queue, as written, does not do what its own code and
    comments intend: GetAndPop on an empty queue, and BatchPut's heap order. */
module Findings {
  import opened Wrappers
  import opened HeapState
  import ContainerHeap
  import PriorityQueue
  import Scenarios

  // ---------------------------------------------------------------------
  // GetAndPop on an empty queue

  /** What a call to GetAndPop can end in: a result, or the runtime panic
      of indexing a slice out of range. */
  datatype PopOutcome<T(==)> = Returned(state: Queue<T>, item: Option<Item<T>>) | IndexOutOfRange

  /** GetAndPop as written: heap.Pop computes n = Len() - 1 and calls
      Swap(0, n) before anything else, so an empty slice is indexed at 0 and
      -1; a non-empty queue always yields an entry, never nil. */
  function GetAndPopAsWritten<T>(q: Queue<T>): (r: PopOutcome<T>)
    ensures r == IndexOutOfRange <==> Len(q) == 0
    ensures r.Returned? ==> r.item.Some? && r.item.value == q.items[0]
  {
    if |q.items| == 0 then IndexOutOfRange
    else
      var (s, it) := ContainerHeap.Pop(q);
      Returned(s, Some(it))
  }

  /** The nil branch of GetAndPop is unreachable: an empty queue panics,
      and every other queue returns an entry; the corrected TryGetAndPop
      returns None and leaves the empty queue unchanged. */
  lemma {:induction false} EmptyGetAndPopPanics<T>(q: Queue<T>)
    ensures GetAndPopAsWritten(q).Returned? ==> GetAndPopAsWritten(q).item != None
    ensures Len(q) == 0 ==> GetAndPopAsWritten(q) == IndexOutOfRange
    ensures Len(q) == 0 ==> PriorityQueue.TryGetAndPop(q) == (q, None)
  {
    if |q.items| > 0 {
      var r := GetAndPopAsWritten(q);
      assert r.item.Some?;
    }
  }

  // ---------------------------------------------------------------------
  // BatchPut does not restore the heap order

  /** The run from the counterexample: any four values with priorities 5,
      9, 7, 1. */
  function Run<T>(a: T, b: T, c: T, d: T): seq<Item<T>>
  {
    [Item(a, 5), Item(b, 9), Item(c, 7), Item(d, 1)]
  }

  /** The state BatchPut builds before its Fix loop: the run appended to an
      empty min-heap. */
  function Appended<T>(a: T, b: T, c: T, d: T): (r: Queue<T>)
    ensures r.items == Run(a, b, c, d) && r.kind == MinHeap
  {
    PriorityQueue.Append(PriorityQueue.New<T>(MinHeap), Run(a, b, c, d))
  }

  /** Fix(0): neither child (9, 7) is Less than 5; Up at the root does nothing. */
  lemma FixSlot0<T>(a: T, b: T, c: T, d: T)
    ensures var s := Appended(a, b, c, d);
            ContainerHeap.Fix(s, 0) == s
  {
    var s := Appended(a, b, c, d);
    assert Less(s, 2, 1) && !Less(s, 2, 0);
    assert ContainerHeap.Down(s, 0, 4) == (s, 0);
  }

  /** Fix(1): 9 is swapped with its child 1; the entry moved down, so Up is
      not called and 1 stays below the root's 5. */
  lemma FixSlot1<T>(a: T, b: T, c: T, d: T)
    ensures var s := Appended(a, b, c, d);
            ContainerHeap.Fix(s, 1) == Swap(s, 1, 3)
  {
    var s := Appended(a, b, c, d);
    var w := Swap(s, 1, 3);
    assert Less(s, 3, 1);
    assert ContainerHeap.Down(w, 3, 4) == (w, 3);
    assert ContainerHeap.Down(s, 1, 4) == (w, 3);
  }

  /** Fix at a slot with no children that is not Less than its parent
      changes nothing: down has nowhere to go and up stops at once. */
  lemma FixLeafStays<T>(w: Queue<T>, k: nat)
    requires 0 < k < |w.items| <= 2 * k + 1
    requires !Less(w, k, Parent(k))
    ensures ContainerHeap.Fix(w, k) == w
  {
    assert ContainerHeap.Down(w, k, |w.items|) == (w, k);
  }

  /** Fix(2) and Fix(3): 7 has no children and is not Less than 5; 9 has no
      children and is not Less than 1. */
  lemma FixSlots2And3<T>(a: T, b: T, c: T, d: T)
    ensures var w := Swap(Appended(a, b, c, d), 1, 3);
            ContainerHeap.Fix(w, 2) == w && ContainerHeap.Fix(w, 3) == w
  {
    var w := Swap(Appended(a, b, c, d), 1, 3);
    assert w.items[0] == Item(a, 5) && w.items[1] == Item(d, 1);
    assert w.items[2] == Item(c, 7) && w.items[3] == Item(b, 9);
    FixLeafStays(w, 2);
    FixLeafStays(w, 3);
  }

  /** Into an empty min-heap, BatchPut leaves priorities [5, 1, 7, 9]: Fix(1)
      sifts 9 down and so brings 1 up into slot 1, but never sifts slot 1
      up, so 5 stays at the root above 1. The first GetAndPop then returns
      priority 5 while priority 1 is still queued. */
  lemma BatchPutBreaksHeap<T>(a: T, b: T, c: T, d: T)
    ensures var r := PriorityQueue.BatchPut(PriorityQueue.New<T>(MinHeap), Run(a, b, c, d));
            && |r.items| == 4
            && r.items[0] == Item(a, 5) && r.items[1] == Item(d, 1)
            && r.items[2] == Item(c, 7) && r.items[3] == Item(b, 9)
            && !HeapOk(r)
            && PriorityQueue.GetAndPop(r).1 == Item(a, 5)
  {
    var s := Appended(a, b, c, d);
    FixSlot0(a, b, c, d);
    FixSlot1(a, b, c, d);
    FixSlots2And3(a, b, c, d);
    var w := Swap(s, 1, 3);
    assert PriorityQueue.FixFrom(w, 4) == w;
    assert PriorityQueue.FixFrom(w, 3) == w;
    assert PriorityQueue.FixFrom(w, 2) == w;
    assert PriorityQueue.FixFrom(s, 1) == w;
    assert PriorityQueue.FixFrom(s, 0) == w;
    var r := PriorityQueue.BatchPut(PriorityQueue.New<T>(MinHeap), Run(a, b, c, d));
    assert r == w;
    assert Less(r, 1, Parent(1));
  }

  /** The repaired BatchPut on the same run keeps the heap order, so
      priority 1 is the first entry GetAndPop returns. */
  lemma BatchPutRepairedKeepsHeap<T>(a: T, b: T, c: T, d: T)
    ensures var r := PriorityQueue.BatchPutRepaired(PriorityQueue.New<T>(MinHeap), Run(a, b, c, d));
            && HeapOk(r) && Len(r) == 4
            && PriorityQueue.GetAndPop(r).1 == Item(d, 1)
  {
    var r := PriorityQueue.BatchPutRepaired(PriorityQueue.New<T>(MinHeap), Run(a, b, c, d));
    var others := multiset{Item(a, 5), Item(b, 9), Item(c, 7)};
    assert multiset(r.items) == others + multiset{Item(d, 1)};
    Scenarios.PopReturnsSmallest(r, Item(d, 1), others);
  }
}

=== FILE: heap_state.dfy ===
/** The queue's state and the heap.Interface methods of HeapPriorityQueue:
    Len, Less, Swap and the slice-level Push and Pop, together with the two
    invariants every public operation keeps: the heap order (HeapOk) and the
    value-to-index lookup table (LookupOk). */
module HeapState {

  /** Whether index 0 holds the smallest or the largest priority. */
  datatype HeapType = MinHeap | MaxHeap

  /** One queued entry. */
  datatype Item<T> = Item(value: T, priority: int)

  /** The slice of entries, the lookup table from value to slice index, and
      the heap type fixed at construction. */
  datatype Queue<T(==)> = Queue(items: seq<Item<T>>, lookup: map<T, int>, kind: HeapType)

  /** A single key that both heap types order ascending: the heap keeps the
      smallest rank at the root. */
  function Rank(kind: HeapType, p: int): int
  {
    match kind
    case MinHeap => p
    case MaxHeap => -p
  }

  /** The rank of the entry at slot k. */
  function Key<T>(q: Queue<T>, k: nat): int
    requires k < |q.items|
  {
    Rank(q.kind, q.items[k].priority)
  }

  /** Parent slot of a non-root slot. Go computes (k-1)/2 with truncation;
      for k >= 1 that agrees with Dafny's division. */
  function Parent(k: nat): nat
    requires k > 0
  {
    (k - 1) / 2
  }

  lemma ChildrenOf(k: nat, i: nat)
    requires k > 0
    ensures Parent(k) == i <==> k == 2 * i + 1 || k == 2 * i + 2
    ensures Parent(k) < k
  {
  }

  // ---------------------------------------------------------------------
  // Invariants

  /** Heap order on the whole slice: no entry is Less than its parent. */
  ghost predicate HeapOk<T>(q: Queue<T>)
  {
    forall k :: 0 < k < |q.items| ==> !Less(q, k, Parent(k))
  }

  /** Heap order on the prefix of length n. */
  ghost predicate HeapUpTo<T>(q: Queue<T>, n: nat)
  {
    && n <= |q.items|
    && forall k :: 0 < k < n ==> Key(q, Parent(k)) <= Key(q, k)
  }

  /** Heap order on the prefix of length n except, possibly, the edge into
      slot j; the parent of j is still no greater than j's children. This is
      what sift-up needs. */
  ghost predicate UpReady<T>(q: Queue<T>, j: nat, n: nat)
  {
    && n <= |q.items|
    && (forall k :: 0 < k < n && k != j ==> Key(q, Parent(k)) <= Key(q, k))
    && (forall c :: 0 < j && 0 < c < n && Parent(c) == j ==> Key(q, Parent(j)) <= Key(q, c))
  }

  /** Heap order on the prefix of length n except, possibly, the edges into
      and out of slot i; the parent of i is still no greater than i's
      children. This is the state after one entry's priority changed. */
  ghost predicate FixReady<T>(q: Queue<T>, i: nat, n: nat)
  {
    && n <= |q.items|
    && (forall k :: 0 < k < n && k != i && Parent(k) != i ==> Key(q, Parent(k)) <= Key(q, k))
    && (forall c :: 0 < i && 0 < c < n && Parent(c) == i ==> Key(q, Parent(i)) <= Key(q, c))
  }

  /** Every key of the lookup table names a slot that holds that key. Every
      operation keeps this, even when a value is inserted twice. */
  ghost predicate LookupSound<T>(q: Queue<T>)
  {
    forall v :: v in q.lookup ==> 0 <= q.lookup[v] < |q.items| && q.items[q.lookup[v]].value == v
  }

  /** The lookup table is exactly the inverse of the slice: every slot's value
      maps to that slot, and every key maps to a slot holding that key. */
  ghost predicate LookupOk<T>(q: Queue<T>)
  {
    && (forall k :: 0 <= k < |q.items| ==> q.items[k].value in q.lookup && q.lookup[q.items[k].value] == k)
    && LookupSound(q)
  }

  /** Every key of the lookup table names a slot that exists. */
  predicate LookupInRange<T>(q: Queue<T>)
  {
    forall v :: v in q.lookup ==> 0 <= q.lookup[v] < |q.items|
  }

  ghost predicate Valid<T>(q: Queue<T>)
  {
    HeapOk(q) && LookupOk(q)
  }

  lemma HeapOkIsHeapUpTo<T>(q: Queue<T>)
    ensures HeapOk(q) <==> HeapUpTo(q, |q.items|)
  {
  }

  /** The lookup table has one key per slot. */
  lemma {:induction false} LookupOkSize<T>(q: Queue<T>)
    ensures LookupOk(q) ==> |q.lookup| == |q.items|
    decreases |q.items|
  {
    if LookupOk(q) && |q.items| > 0 {
      var n := |q.items| - 1;
      var v := q.items[n].value;
      var q' := q.(items := q.items[..n], lookup := q.lookup - {v});
      forall k | 0 <= k < |q'.items|
        ensures q'.items[k].value in q'.lookup && q'.lookup[q'.items[k].value] == k
      {
        assert q.items[k].value != v;
      }
      assert LookupOk(q');
      LookupOkSize(q');
      assert q.lookup.Keys == q'.lookup.Keys + {v};
    }
  }

  // ---------------------------------------------------------------------
  // heap.Interface

  /** Number of entries. */
  function Len<T>(q: Queue<T>): (r: nat)
    ensures LookupOk(q) ==> r == |q.lookup|
  {
    LookupOkSize(q);
    |q.items|
  }

  /** Strict priority comparison of two slots, by heap type. */
  function Less<T>(q: Queue<T>, i: nat, j: nat): (r: bool)
    requires i < |q.items| && j < |q.items|
    ensures r <==> Key(q, i) < Key(q, j)
  {
    match q.kind
    case MinHeap => q.items[i].priority < q.items[j].priority
    case MaxHeap => q.items[i].priority > q.items[j].priority
  }

  /** Less is a strict order; two slots neither of which is Less than the
      other hold equal priorities, so equal priorities are never swapped. */
  lemma LessIsStrict<T>(q: Queue<T>, i: nat, j: nat, k: nat)
    requires i < |q.items| && j < |q.items| && k < |q.items|
    ensures !Less(q, i, i)
    ensures Less(q, i, j) ==> !Less(q, j, i)
    ensures Less(q, i, j) && Less(q, j, k) ==> Less(q, i, k)
    ensures !Less(q, i, j) && !Less(q, j, i) <==> q.items[i].priority == q.items[j].priority
  {
  }

  /** Exchange two slots and re-point the lookup entries of both values. */
  function Swap<T>(q: Queue<T>, i: nat, j: nat): (r: Queue<T>)
    requires i < |q.items| && j < |q.items|
    ensures |r.items| == |q.items| && r.kind == q.kind
    ensures r.items[i] == q.items[j] && r.items[j] == q.items[i]
    ensures forall k :: 0 <= k < |q.items| && k != i && k != j ==> r.items[k] == q.items[k]
    ensures multiset(r.items) == multiset(q.items)
    ensures r.lookup.Keys == q.lookup.Keys + {q.items[i].value, q.items[j].value}
    ensures r.lookup[q.items[i].value] == j
    ensures q.items[i].value != q.items[j].value ==> r.lookup[q.items[j].value] == i
    ensures forall v :: v in q.lookup && v != q.items[i].value && v != q.items[j].value ==> r.lookup[v] == q.lookup[v]
    ensures LookupSound(q) ==> LookupSound(r)
    ensures LookupOk(q) ==> LookupOk(r) && r.lookup.Keys == q.lookup.Keys
  {
    var s := q.items[i := q.items[j]][j := q.items[i]];
    var r := q.(items := s, lookup := q.lookup[s[i].value := i][s[j].value := j]);
    SwapKeepsLookup(q, i, j, r);
    r
  }

  lemma SwapKeepsLookup<T>(q: Queue<T>, i: nat, j: nat, r: Queue<T>)
    requires i < |q.items| && j < |q.items|
    requires r.items == q.items[i := q.items[j]][j := q.items[i]]
    requires r.lookup == q.lookup[r.items[i].value := i][r.items[j].value := j]
    ensures LookupSound(q) ==> LookupSound(r)
    ensures LookupOk(q) ==> LookupOk(r) && r.lookup.Keys == q.lookup.Keys
  {
    if LookupSound(q) {
      forall v | v in r.lookup
        ensures 0 <= r.lookup[v] < |r.items| && r.items[r.lookup[v]].value == v
      {
        if v != r.items[i].value && v != r.items[j].value {
          var k := q.lookup[v];
          assert k != i && k != j;
          assert r.items[k] == q.items[k];
        }
      }
    }
    if LookupOk(q) {
      forall k | 0 <= k < |r.items|
        ensures r.items[k].value in r.lookup && r.lookup[r.items[k].value] == k
      {
        if k != i && k != j {
          assert r.items[k] == q.items[k];
          assert r.items[k].value != r.items[i].value;
          assert r.items[k].value != r.items[j].value;
        }
      }
    }
  }

  /** Slice-level Push: append the entry and record its index. */
  function Push<T>(q: Queue<T>, it: Item<T>): (r: Queue<T>)
    ensures r.kind == q.kind && |r.items| == |q.items| + 1
    ensures forall k :: 0 <= k < |q.items| ==> r.items[k] == q.items[k]
    ensures r.items[|q.items|] == it
    ensures it.value in r.lookup && r.lookup[it.value] == |q.items|
    ensures multiset(r.items) == multiset(q.items) + multiset{it}
    ensures LookupSound(q) ==> LookupSound(r)
    ensures LookupOk(q) && it.value !in q.lookup ==> LookupOk(r) && r.lookup.Keys == q.lookup.Keys + {it.value}
  {
    q.(items := q.items + [it], lookup := q.lookup[it.value := |q.items|])
  }

  /** Slice-level Pop: remove the last entry and delete its key. */
  function Pop<T>(q: Queue<T>): (r: (Queue<T>, Item<T>))
    requires |q.items| > 0
    ensures r.0.kind == q.kind && |r.0.items| == |q.items| - 1
    ensures r.1 == q.items[|q.items| - 1]
    ensures forall k :: 0 <= k < |r.0.items| ==> r.0.items[k] == q.items[k]
    ensures multiset(r.0.items) + multiset{r.1} == multiset(q.items)
    ensures r.1.value !in r.0.lookup
    ensures LookupSound(q) ==> LookupSound(r.0)
    ensures LookupOk(q) ==> LookupOk(r.0) && r.0.lookup.Keys == q.lookup.Keys - {r.1.value}
  {
    var n := |q.items| - 1;
    var it := q.items[n];
    assert q.items == q.items[..n] + [it];
    (q.(items := q.items[..n], lookup := q.lookup - {it.value}), it)
  }

  /** Swapping the same two slots twice restores an exactly indexed state. */
  lemma SwapTwice<T>(q: Queue<T>, i: nat, j: nat)
    requires i < |q.items| && j < |q.items| && LookupOk(q)
    ensures Swap(Swap(q, i, j), i, j) == q
  {
    var vi, vj := q.items[i].value, q.items[j].value;
    var s := Swap(q, i, j);
    assert s.lookup == q.lookup[vj := i][vi := j];
    var r := Swap(s, i, j);
    assert r.items == q.items;
    assert r.lookup == s.lookup[vi := i][vj := j];
    assert q.lookup[vi] == i && q.lookup[vj] == j;
    assert r.lookup == q.lookup by {
      forall v | v in q.lookup
        ensures v in r.lookup && r.lookup[v] == q.lookup[v]
      {
      }
      assert r.lookup.Keys == q.lookup.Keys;
    }
  }

  /** The slice-level Pop undoes the slice-level Push of a value that had no
      key. */
  lemma PopUndoesPush<T>(q: Queue<T>, it: Item<T>)
    requires it.value !in q.lookup
    ensures Pop(Push(q, it)) == (q, it)
  {
    var p := Push(q, it);
    assert p.items[..|q.items|] == q.items;
    assert p.lookup - {it.value} == q.lookup;
  }

  // ---------------------------------------------------------------------
  // Facts about the invariants

  /** Under the heap order, the root's rank is no greater than any rank in
      the prefix. */
  lemma {:induction false} RootBelow<T>(q: Queue<T>, n: nat, k: nat)
    requires HeapUpTo(q, n) && k < n
    ensures Key(q, 0) <= Key(q, k)
    decreases k
  {
    if k > 0 {
      ChildrenOf(k, Parent(k));
      RootBelow(q, n, Parent(k));
    }
  }

  /** Under HeapOk, no entry is Less than the root. */
  lemma RootIsExtremal<T>(q: Queue<T>)
    requires HeapOk(q) && |q.items| > 0
    ensures forall k :: 0 <= k < |q.items| ==> !Less(q, k, 0)
    ensures forall k :: 0 <= k < |q.items| ==> Rank(q.kind, q.items[0].priority) <= Rank(q.kind, q.items[k].priority)
  {
    forall k | 0 <= k < |q.items|
      ensures Rank(q.kind, q.items[0].priority) <= Rank(q.kind, q.items[k].priority)
    {
      RootBelow(q, |q.items|, k);
    }
  }
}

=== FILE: priority_queue.dfy ===
/** The public operations of HeapPriorityQueue: Put, Get, GetAndPop, IsEmpty,
    Update, Clear and BatchPut, on the single-threaded state record. */
module PriorityQueue {
  import opened Wrappers
  import opened HeapState
  import ContainerHeap

  /** A new queue: no entries, an empty lookup table, a fixed heap type. */
  function New<T>(kind: HeapType): (r: Queue<T>)
    ensures Valid(r) && Len(r) == 0 && r.kind == kind
  {
    Queue([], map[], kind)
  }

  /** Insert a value with a priority. The source does not check for a
      duplicate value: both entries stay in the heap under a single lookup
      key, so one of them can no longer be found and LookupOk is kept only
      for an absent value. Each Swap writes the key of the entry that moved
      up before that of the entry that moved down, so the key ends on the
      older entry only when the new one's last sift-up swap was with it. */
  function Put<T>(q: Queue<T>, value: T, priority: int): (r: Queue<T>)
    ensures r.kind == q.kind && Len(r) == Len(q) + 1
    ensures multiset(r.items) == multiset(q.items) + multiset{Item(value, priority)}
    ensures value in r.lookup
    ensures HeapOk(q) ==> HeapOk(r)
    ensures LookupSound(q) ==> LookupSound(r)
    ensures LookupOk(q) && value !in q.lookup ==> LookupOk(r) && r.lookup.Keys == q.lookup.Keys + {value}
  {
    ContainerHeap.Push(q, Item(value, priority))
  }

  /** The next entry without removing it, or None when the queue is empty.
      Under the heap order no entry ranks ahead of it. */
  function Get<T>(q: Queue<T>): (r: Option<Item<T>>)
    ensures r == None <==> Len(q) == 0
    ensures r.Some? ==> r.value in q.items && r.value == q.items[0]
    ensures r.Some? && HeapOk(q) ==>
              forall k :: 0 <= k < |q.items| ==> Rank(q.kind, r.value.priority) <= Rank(q.kind, q.items[k].priority)
  {
    if |q.items| == 0 then None
    else
      assert HeapOk(q) ==> forall k :: 0 <= k < |q.items| ==>
                             Rank(q.kind, q.items[0].priority) <= Rank(q.kind, q.items[k].priority) by {
        if HeapOk(q) {
          RootIsExtremal(q);
        }
      }
      Some(q.items[0])
  }

  /** Remove and return the next entry. heap.Pop indexes slot -1 of an empty
      slice, so the queue must be non-empty. */
  function GetAndPop<T>(q: Queue<T>): (r: (Queue<T>, Item<T>))
    requires Len(q) > 0
    ensures r.1 == q.items[0]
    ensures HeapOk(q) ==> forall k :: 0 <= k < |q.items| ==> Rank(q.kind, r.1.priority) <= Rank(q.kind, q.items[k].priority)
    ensures r.0.kind == q.kind && Len(r.0) == Len(q) - 1
    ensures multiset(r.0.items) + multiset{r.1} == multiset(q.items)
    ensures HeapOk(q) ==> HeapOk(r.0)
    ensures LookupSound(q) ==> LookupSound(r.0)
    ensures r.1.value !in r.0.lookup
    ensures LookupOk(q) ==> LookupOk(r.0) && r.0.lookup.Keys == q.lookup.Keys - {r.1.value}
  {
    assert HeapOk(q) ==> forall k :: 0 <= k < |q.items| ==>
                           Rank(q.kind, q.items[0].priority) <= Rank(q.kind, q.items[k].priority) by {
      if HeapOk(q) {
        RootIsExtremal(q);
      }
    }
    ContainerHeap.Pop(q)
  }

  /** GetAndPop as the nil check after heap.Pop intends it: an empty queue
      yields None and is left as it is. */
  function TryGetAndPop<T>(q: Queue<T>): (r: (Queue<T>, Option<Item<T>>))
    ensures r.1 == None <==> Len(q) == 0
    ensures r.1 == None ==> r.0 == q
    ensures r.1.Some? ==> r.1.value == q.items[0] && Len(r.0) == Len(q) - 1
    ensures r.1.Some? ==> multiset(r.0.items) + multiset{r.1.value} == multiset(q.items)
    ensures Valid(q) ==> Valid(r.0)
  {
    if |q.items| == 0 then (q, None)
    else
      var (s, it) := GetAndPop(q);
      (s, Some(it))
  }

  /** True exactly when Get finds nothing. */
  function IsEmpty<T>(q: Queue<T>): (r: bool)
    ensures r <==> Get(q) == None
    ensures LookupOk(q) ==> (r <==> q.lookup == map[])
  {
    LookupOkSize(q);
    Len(q) == 0
  }

  /** Give a present value a new priority and restore the heap order. A
      missing value, or an unchanged priority, leaves the queue as it is.
      The source reads the slot the lookup names, so that slot must exist. */
  function Update<T>(q: Queue<T>, value: T, priority: int): (r: Queue<T>)
    requires LookupInRange(q)
    ensures r.kind == q.kind && Len(r) == Len(q)
    ensures value !in q.lookup ==> r == q
    ensures value in q.lookup && q.items[q.lookup[value]].priority == priority ==> r == q
    ensures HeapOk(q) ==> HeapOk(r)
    ensures LookupSound(q) ==> LookupSound(r)
    ensures LookupOk(q) ==> LookupOk(r) && r.lookup.Keys == q.lookup.Keys
    ensures LookupOk(q) && value in q.lookup ==>
              && r.items[r.lookup[value]] == Item(value, priority)
              && multiset(r.items) == multiset(q.items) - multiset{q.items[q.lookup[value]]} + multiset{Item(value, priority)}
  {
    if value !in q.lookup then q
    else
      var index := q.lookup[value];
      if q.items[index].priority == priority then q
      else
        var changed := q.(items := q.items[index := q.items[index].(priority := priority)]);
        UpdateChanged(q, value, priority);
        ContainerHeap.Fix(changed, index)
  }

  /** What Fix makes of a slot whose priority changed. */
  lemma UpdateChanged<T>(q: Queue<T>, value: T, priority: int)
    requires value in q.lookup && 0 <= q.lookup[value] < |q.items|
    ensures var index := q.lookup[value];
            var r := ContainerHeap.Fix(q.(items := q.items[index := q.items[index].(priority := priority)]), index);
            && r.kind == q.kind && |r.items| == |q.items|
            && (HeapOk(q) ==> HeapOk(r))
            && (LookupSound(q) ==> LookupSound(r))
            && (LookupOk(q) ==>
                  && LookupOk(r) && r.lookup.Keys == q.lookup.Keys
                  && r.items[r.lookup[value]] == Item(value, priority)
                  && multiset(r.items) == multiset(q.items) - multiset{q.items[index]} + multiset{Item(value, priority)})
  {
    var index := q.lookup[value];
    var c := q.(items := q.items[index := q.items[index].(priority := priority)]);
    var r := ContainerHeap.Fix(c, index);
    ChangeKeepsLookup(q, index, priority);
    if HeapOk(q) {
      ChangeIsFixReady(q, index, priority);
    }
    if LookupOk(q) {
      assert c.items[c.lookup[value]] == Item(value, priority);
      SameEntriesSameSlotContent(c, r, value);
    }
  }

  /** Two states with the same entries and exact lookup tables hold the same
      entry at the slot their lookups name for a value. */
  lemma SameEntriesSameSlotContent<T>(a: Queue<T>, b: Queue<T>, value: T)
    requires LookupOk(a) && LookupOk(b) && multiset(a.items) == multiset(b.items)
    requires value in a.lookup && value in b.lookup
    ensures b.items[b.lookup[value]] == a.items[a.lookup[value]]
  {
    var x := b.items[b.lookup[value]];
    assert x in multiset(b.items);
    assert x in a.items;
    var k :| 0 <= k < |a.items| && a.items[k] == x;
  }

  /** Changing one slot's priority keeps the values, so the lookup table. */
  lemma ChangeKeepsLookup<T>(q: Queue<T>, index: nat, priority: int)
    requires index < |q.items|
    ensures var c := q.(items := q.items[index := q.items[index].(priority := priority)]);
            && (LookupSound(q) ==> LookupSound(c))
            && (LookupOk(q) ==> LookupOk(c))
            && multiset(c.items) == multiset(q.items) - multiset{q.items[index]} + multiset{Item(q.items[index].value, priority)}
  {
  }

  /** Changing one slot's priority in a heap breaks at most that slot's edges. */
  lemma ChangeIsFixReady<T>(q: Queue<T>, index: nat, priority: int)
    requires index < |q.items| && HeapOk(q)
    ensures FixReady(q.(items := q.items[index := q.items[index].(priority := priority)]), index, |q.items|)
  {
    var c := q.(items := q.items[index := q.items[index].(priority := priority)]);
    var n := |q.items|;
    forall k | 0 < k < n && k != index && Parent(k) != index
      ensures Key(c, Parent(k)) <= Key(c, k)
    {
      ChildrenOf(k, Parent(k));
      assert !Less(q, k, Parent(k));
    }
    forall k | 0 < index && 0 < k < n && Parent(k) == index
      ensures Key(c, Parent(index)) <= Key(c, k)
    {
      ChildrenOf(k, index);
      ChildrenOf(index, Parent(index));
      assert !Less(q, k, index);
      assert !Less(q, index, Parent(index));
    }
  }

  /** Drop every entry and the whole lookup table. */
  function Clear<T>(q: Queue<T>): (r: Queue<T>)
    ensures Valid(r) && r.kind == q.kind
    ensures Len(r) == 0 && IsEmpty(r) && Get(r) == None && r.lookup == map[]
  {
    New(q.kind)
  }

  // ---------------------------------------------------------------------
  // BatchPut

  /** The values of a run of entries. */
  function Values<T>(xs: seq<Item<T>>): set<T>
  {
    set k | 0 <= k < |xs| :: xs[k].value
  }

  /** No two entries of the run share a value. */
  ghost predicate DistinctValues<T>(xs: seq<Item<T>>)
  {
    forall a, b :: 0 <= a < b < |xs| ==> xs[a].value != xs[b].value
  }

  /** Record base + k for the k-th entry's value, in order, so that a value
      given twice keeps the index of its last occurrence. */
  function AssignIndices<T>(m: map<T, int>, xs: seq<Item<T>>, base: int): map<T, int>
    decreases |xs|
  {
    if |xs| == 0 then m
    else AssignIndices(m[xs[0].value := base], xs[1..], base + 1)
  }

  lemma ValuesSplit<T>(xs: seq<Item<T>>)
    requires |xs| > 0
    ensures Values(xs) == {xs[0].value} + Values(xs[1..])
  {
    forall v | v in Values(xs)
      ensures v in {xs[0].value} + Values(xs[1..])
    {
      var k :| 0 <= k < |xs| && xs[k].value == v;
      if k > 0 {
        assert xs[1..][k - 1].value == v;
      }
    }
  }

  /** After AssignIndices a value is a key when it was one or is in the run;
      a value not in the run keeps its index; a value in the run gets base
      plus the position of its last occurrence. */
  lemma {:induction false} AssignIndicesAt<T>(m: map<T, int>, xs: seq<Item<T>>, base: int, v: T)
    ensures var r := AssignIndices(m, xs, base);
            && (v in r <==> v in m || v in Values(xs))
            && (v in m && v !in Values(xs) ==> r[v] == m[v])
            && (v in Values(xs) ==>
                  && base <= r[v] < base + |xs| && xs[r[v] - base].value == v
                  && forall l :: r[v] - base < l < |xs| ==> xs[l].value != v)
    decreases |xs|
  {
    if |xs| > 0 {
      ValuesSplit(xs);
      var tail := xs[1..];
      AssignIndicesAt(m[xs[0].value := base], tail, base + 1, v);
      var r := AssignIndices(m, xs, base);
      if v in Values(tail) {
        assert xs[r[v] - base] == tail[r[v] - (base + 1)];
        forall l | r[v] - base < l < |xs|
          ensures xs[l].value != v
        {
          assert xs[l] == tail[l - 1];
        }
      } else if v == xs[0].value {
        forall l | 0 < l < |xs|
          ensures xs[l].value != v
        {
          assert xs[l] == tail[l - 1];
        }
      }
    }
  }

  /** Fix every slot from i to the end, in ascending order. */
  function FixFrom<T>(q: Queue<T>, i: nat): (r: Queue<T>)
    requires i <= |q.items|
    ensures r.kind == q.kind && |r.items| == |q.items|
    ensures multiset(r.items) == multiset(q.items)
    ensures LookupSound(q) ==> LookupSound(r)
    ensures LookupOk(q) ==> LookupOk(r) && r.lookup.Keys == q.lookup.Keys
    decreases |q.items| - i
  {
    if i == |q.items| then q
    else FixFrom(ContainerHeap.Fix(q, i), i + 1)
  }

  /** The slice with the run appended and the lookup table extended for it. */
  function Append<T>(q: Queue<T>, xs: seq<Item<T>>): (r: Queue<T>)
    ensures r.kind == q.kind && |r.items| == |q.items| + |xs|
    ensures forall k :: 0 <= k < |q.items| ==> r.items[k] == q.items[k]
    ensures multiset(r.items) == multiset(q.items) + multiset(xs)
    ensures LookupSound(q) ==> LookupSound(r)
    ensures LookupOk(q) && DistinctValues(xs) && Values(xs) !! q.lookup.Keys ==>
              LookupOk(r) && r.lookup.Keys == q.lookup.Keys + Values(xs)
  {
    var r := q.(items := q.items + xs, lookup := AssignIndices(q.lookup, xs, |q.items|));
    AppendKeepsLookup(q, xs, r);
    r
  }

  lemma AppendKeepsLookup<T>(q: Queue<T>, xs: seq<Item<T>>, r: Queue<T>)
    requires r == q.(items := q.items + xs, lookup := AssignIndices(q.lookup, xs, |q.items|))
    ensures LookupSound(q) ==> LookupSound(r)
    ensures LookupOk(q) && DistinctValues(xs) && Values(xs) !! q.lookup.Keys ==>
              LookupOk(r) && r.lookup.Keys == q.lookup.Keys + Values(xs)
  {
    var n := |q.items|;
    if LookupSound(q) {
      forall v | v in r.lookup
        ensures 0 <= r.lookup[v] < |r.items| && r.items[r.lookup[v]].value == v
      {
        AssignIndicesAt(q.lookup, xs, n, v);
        if v in Values(xs) {
          assert r.items[r.lookup[v]] == xs[r.lookup[v] - n];
        }
      }
    }
    if LookupOk(q) && DistinctValues(xs) && Values(xs) !! q.lookup.Keys {
      forall k | 0 <= k < |r.items|
        ensures r.items[k].value in r.lookup && r.lookup[r.items[k].value] == k
      {
        var v := r.items[k].value;
        AssignIndicesAt(q.lookup, xs, n, v);
        if k >= n {
          assert r.items[k] == xs[k - n];
          assert v in Values(xs);
        } else {
          assert r.items[k] == q.items[k];
          assert v in q.lookup.Keys;
        }
      }
      forall v | v in r.lookup.Keys
        ensures v in q.lookup.Keys + Values(xs)
      {
        AssignIndicesAt(q.lookup, xs, n, v);
      }
      forall v | v in q.lookup.Keys + Values(xs)
        ensures v in r.lookup.Keys
      {
        AssignIndicesAt(q.lookup, xs, n, v);
      }
    }
  }

  /** Append a run of entries, extend the lookup table, then Fix each new
      slot in ascending order. An empty run changes nothing. The heap order
      is not restored in general (see the Findings module). */
  function BatchPut<T>(q: Queue<T>, xs: seq<Item<T>>): (r: Queue<T>)
    ensures |xs| == 0 ==> r == q
    ensures r.kind == q.kind && Len(r) == Len(q) + |xs|
    ensures multiset(r.items) == multiset(q.items) + multiset(xs)
    ensures LookupSound(q) ==> LookupSound(r)
    ensures LookupOk(q) && DistinctValues(xs) && Values(xs) !! q.lookup.Keys ==>
              LookupOk(r) && r.lookup.Keys == q.lookup.Keys + Values(xs)
  {
    if |xs| == 0 then q
    else FixFrom(Append(q, xs), |q.items|)
  }

  /** Sift every slot from i to the end up, in ascending order. */
  function UpFrom<T>(q: Queue<T>, i: nat): (r: Queue<T>)
    requires i <= |q.items|
    ensures r.kind == q.kind && |r.items| == |q.items|
    ensures multiset(r.items) == multiset(q.items)
    ensures LookupSound(q) ==> LookupSound(r)
    ensures LookupOk(q) ==> LookupOk(r) && r.lookup.Keys == q.lookup.Keys
    ensures HeapUpTo(q, i) ==> HeapOk(r)
    decreases |q.items| - i
  {
    if i == |q.items| then
      HeapOkIsHeapUpTo(q);
      q
    else
      var u := ContainerHeap.Up(q, i);
      assert HeapUpTo(q, i) ==> HeapUpTo(u, i + 1) by {
        if HeapUpTo(q, i) {
          forall c | 0 < c < i + 1
            ensures Parent(c) < i
          {
            ChildrenOf(c, Parent(c));
          }
          assert UpReady(q, i, i + 1);
          ContainerHeap.UpRestoresHeap(q, i, i + 1);
        }
      }
      UpFrom(u, i + 1)
  }

  /** BatchPut with each appended slot sifted up instead of fixed, which
      gives the same slice as inserting the run with heap.Push one entry at
      a time: this keeps the heap order. The lookup table can differ for a
      value repeated in the run, because every key is written before any
      slot is sifted. */
  function BatchPutRepaired<T>(q: Queue<T>, xs: seq<Item<T>>): (r: Queue<T>)
    ensures |xs| == 0 ==> r == q
    ensures r.kind == q.kind && Len(r) == Len(q) + |xs|
    ensures multiset(r.items) == multiset(q.items) + multiset(xs)
    ensures HeapOk(q) ==> HeapOk(r)
    ensures LookupSound(q) ==> LookupSound(r)
    ensures LookupOk(q) && DistinctValues(xs) && Values(xs) !! q.lookup.Keys ==>
              LookupOk(r) && r.lookup.Keys == q.lookup.Keys + Values(xs)
  {
    if |xs| == 0 then q
    else
      var a := Append(q, xs);
      assert HeapOk(q) ==> HeapUpTo(a, |q.items|) by {
        if HeapOk(q) {
          forall k | 0 < k < |q.items|
            ensures Key(a, Parent(k)) <= Key(a, k)
          {
            ChildrenOf(k, Parent(k));
            assert !Less(q, k, Parent(k));
          }
        }
      }
      UpFrom(a, |q.items|)
  }
}

=== FILE: scenarios.dfy ===
/** Properties that relate several calls: draining a queue in heap order,
    the idempotence of Update on a queue with an exact lookup table, what a
    duplicate Put leaves behind, and the worked min-heap and max-heap
    examples, all derived from the operations' contracts. */
module Scenarios {
  import opened Wrappers
  import opened HeapState
  import opened PriorityQueue

  /** Ranks never decrease along the run. */
  ghost predicate Sorted<T>(kind: HeapType, xs: seq<Item<T>>)
  {
    forall a, b :: 0 <= a < b < |xs| ==> Rank(kind, xs[a].priority) <= Rank(kind, xs[b].priority)
  }

  /** The entry GetAndPop returns ranks no later than any queued entry. */
  lemma PopIsExtremal<T>(q: Queue<T>, y: Item<T>)
    requires HeapOk(q) && Len(q) > 0 && y in multiset(q.items)
    ensures Rank(q.kind, GetAndPop(q).1.priority) <= Rank(q.kind, y.priority)
  {
    assert y in q.items;
    var k :| 0 <= k < |q.items| && q.items[k] == y;
  }

  /** From a queue in heap order, the entries GetAndPop returns, one call
      after another, until the queue is empty: all the queued entries,
      ascending in rank (ascending priority for MinHeap, descending for
      MaxHeap). */
  function Drain<T>(q: Queue<T>): (r: seq<Item<T>>)
    requires HeapOk(q)
    ensures multiset(r) == multiset(q.items)
    ensures Sorted(q.kind, r)
    decreases |q.items|
  {
    if |q.items| == 0 then []
    else
      var (s, it) := GetAndPop(q);
      var rest := Drain(s);
      forall b | 0 <= b < |rest|
        ensures Rank(q.kind, it.priority) <= Rank(q.kind, rest[b].priority)
      {
        assert rest[b] in multiset(rest);
        PopIsExtremal(q, rest[b]);
      }
      SortedCons(q.kind, it, rest);
      [it] + rest
  }

  lemma SortedCons<T>(kind: HeapType, x: Item<T>, xs: seq<Item<T>>)
    requires Sorted(kind, xs)
    requires forall b :: 0 <= b < |xs| ==> Rank(kind, x.priority) <= Rank(kind, xs[b].priority)
    ensures Sorted(kind, [x] + xs)
  {
    forall a, b | 0 <= a < b < |[x] + xs|
      ensures Rank(kind, ([x] + xs)[a].priority) <= Rank(kind, ([x] + xs)[b].priority)
    {
      assert ([x] + xs)[b] == xs[b - 1];
      if a > 0 {
        assert ([x] + xs)[a] == xs[a - 1];
      }
    }
  }

  /** On a queue with an exact lookup table, updating a value to the
      priority it was just given changes nothing. */
  lemma UpdateIdempotent<T>(q: Queue<T>, value: T, priority: int)
    requires LookupOk(q)
    ensures LookupInRange(Update(q, value, priority))
    ensures Update(Update(q, value, priority), value, priority) == Update(q, value, priority)
  {
    var r := Update(q, value, priority);
    if value in q.lookup {
      assert r.items[r.lookup[value]].priority == priority;
    }
  }

  /** Putting a value twice, as the source allows, leaves two entries but a
      single lookup key: one of the two entries can no longer be found by
      Update, and LookupOk no longer holds. The key ends on the older entry
      only when the newer one's last sift-up swap was with it (see
      DuplicatePutSiftUp and DuplicatePutPassesOlder). */
  lemma {:induction false} DuplicatePutOrphansEntry<T>(kind: HeapType, value: T)
    ensures var q := Put(Put(New<T>(kind), value, 1), value, 2);
            && Len(q) == 2 && |q.lookup| == 1 && !LookupOk(q)
  {
    var q1 := Put(New<T>(kind), value, 1);
    var q := Put(q1, value, 2);
    assert LookupSound(q);
    assert q.lookup.Keys == {value} by {
      forall v | v in q.lookup
        ensures v == value
      {
        assert q.items[q.lookup[v]] in multiset(q.items);
      }
    }
    assert |q.lookup| == |q.lookup.Keys|;
    LookupOkSize(q);
  }

  /** In a max-heap, Put(v, 1) then Put(v, 2): Push points the key at slot 1,
      then the sift-up's Swap(0, 1) writes slot 0 and then slot 1 for the same
      value, so the key ends on the older entry (v, 1) in slot 1 and the newer
      (v, 2) at the root is the one without a key. */
  lemma DuplicatePutSiftUp<T>(value: T)
    ensures var q := Put(Put(New<T>(MaxHeap), value, 1), value, 2);
            && q.kind == MaxHeap
            && q.items == [Item(value, 2), Item(value, 1)]
            && q.lookup == map[value := 1]
  {
    var q1 := Put(New<T>(MaxHeap), value, 1);
    assert q1.items == [Item(value, 1)] && q1.lookup == map[value := 0];
    SecondPutSwapsRoot(q1, value);
  }

  /** The second Put of the same value, with a higher priority, swaps with the
      root and leaves the key on slot 1. */
  lemma SecondPutSwapsRoot<T>(q1: Queue<T>, value: T)
    requires q1.kind == MaxHeap && q1.items == [Item(value, 1)] && q1.lookup == map[value := 0]
    ensures var q := Put(q1, value, 2);
            && q.kind == MaxHeap
            && q.items == [Item(value, 2), Item(value, 1)]
            && q.lookup == map[value := 1]
  {
    var p := HeapState.Push(q1, Item(value, 2));
    assert p.items == [Item(value, 1), Item(value, 2)];
    assert Less(p, 1, 0);
    var s := Swap(p, 0, 1);
    assert s.items == [Item(value, 2), Item(value, 1)];
    assert s.lookup == map[value := 1];
    assert Put(q1, value, 2) == s;
  }

  /** In a max-heap holding (w, 5), (v, 1), (x, 0), as three Puts of distinct
      values leave it, Put(v, 9) swaps first with the older (v, 1), then with
      (w, 5) at the root. The last Swap writes v's key at the root, so the
      key follows the newer entry although it passed the older one. */
  lemma DuplicatePutPassesOlder<T>(q: Queue<T>, w: T, v: T, x: T)
    requires w != v && v != x && w != x
    requires q.kind == MaxHeap && q.items == [Item(w, 5), Item(v, 1), Item(x, 0)]
    requires q.lookup == map[w := 0, v := 1, x := 2]
    ensures var r := Put(q, v, 9);
            && r.items == [Item(v, 9), Item(w, 5), Item(x, 0), Item(v, 1)]
            && r.lookup[v] == 0
  {
    var p := HeapState.Push(q, Item(v, 9));
    PutIsPushThenUp(q, v, 9);
    PushAfterThree(q, w, v, x);
    SwapWithOlder(p, w, v, x);
    UpStep(p, 3);
    var s := Swap(p, 1, 3);
    SwapWithRoot(s, w, v, x);
    UpStep(s, 1);
  }

  /** Put is the slice-level Push followed by a sift-up from the new slot. */
  lemma PutIsPushThenUp<T>(q: Queue<T>, value: T, priority: int)
    ensures Put(q, value, priority) == ContainerHeap.Up(HeapState.Push(q, Item(value, priority)), |q.items|)
  {
  }

  /** One step of sift-up: a slot Less than its parent swaps with it. */
  lemma UpStep<T>(q: Queue<T>, j: nat)
    requires 0 < j < |q.items| && Less(q, j, Parent(j))
    ensures ContainerHeap.Up(q, j) == ContainerHeap.Up(Swap(q, Parent(j), j), Parent(j))
  {
  }

  /** Pushing (v, 9) onto the three entries appends it as slot 3. */
  lemma PushAfterThree<T>(q: Queue<T>, w: T, v: T, x: T)
    requires q.kind == MaxHeap && q.items == [Item(w, 5), Item(v, 1), Item(x, 0)]
    ensures HeapState.Push(q, Item(v, 9)).kind == MaxHeap
    ensures HeapState.Push(q, Item(v, 9)).items == [Item(w, 5), Item(v, 1), Item(x, 0), Item(v, 9)]
  {
  }

  /** The first sift-up step: the new (v, 9) in slot 3 swaps with the older
      (v, 1) in slot 1. Go writes v's key as 1 and then as 3. */
  lemma SwapWithOlder<T>(p: Queue<T>, w: T, v: T, x: T)
    requires w != v && v != x && w != x
    requires p.kind == MaxHeap && p.items == [Item(w, 5), Item(v, 1), Item(x, 0), Item(v, 9)]
    ensures Less(p, 3, 1)
    ensures Swap(p, 1, 3).kind == MaxHeap
    ensures Swap(p, 1, 3).items == [Item(w, 5), Item(v, 9), Item(x, 0), Item(v, 1)]
    ensures Swap(p, 1, 3).lookup[v] == 3
  {
  }

  /** The second sift-up step: (v, 9) in slot 1 swaps with (w, 5) at the
      root, and the last write puts v's key at the root. */
  lemma SwapWithRoot<T>(s: Queue<T>, w: T, v: T, x: T)
    requires w != v && v != x && w != x
    requires s.kind == MaxHeap && s.items == [Item(w, 5), Item(v, 9), Item(x, 0), Item(v, 1)]
    ensures Less(s, 1, 0)
    ensures Swap(s, 0, 1).items == [Item(v, 9), Item(w, 5), Item(x, 0), Item(v, 1)]
    ensures Swap(s, 0, 1).lookup[v] == 0
    ensures ContainerHeap.Up(Swap(s, 0, 1), 0) == Swap(s, 0, 1)
  {
  }

  /** An Update of v on that state changes the older entry in slot 1, not
      the newer one at the root, which keeps its old priority. An Update that
      sifts the older entry up instead moves the key onto the newer entry
      (UpdateSiftsDuplicate). */
  lemma UpdateAfterDuplicatePut<T>(q: Queue<T>, value: T)
    requires q.kind == MaxHeap
    requires q.items == [Item(value, 2), Item(value, 1)] && q.lookup == map[value := 1]
    ensures LookupInRange(q)
    ensures var u := Update(q, value, 0);
            && u.items == [Item(value, 2), Item(value, 0)]
            && u.lookup == map[value := 1]
  {
    var c := q.(items := q.items[1 := Item(value, 0)]);
    assert ContainerHeap.Down(c, 1, 2) == (c, 1);
    assert !Less(c, 1, 0);
    assert ContainerHeap.Up(c, 1) == c;
  }

  /** In the same state, Update(v, 5) sifts the older entry up past the root:
      Swap(0, 1) writes slot 0 and then slot 1 for v, so the key stays on
      slot 1, which now holds the newer entry (v, 2). */
  lemma UpdateSiftsDuplicate<T>(q: Queue<T>, value: T)
    requires q.kind == MaxHeap
    requires q.items == [Item(value, 2), Item(value, 1)] && q.lookup == map[value := 1]
    ensures LookupInRange(q)
    ensures var u := Update(q, value, 5);
            && u.kind == MaxHeap
            && u.items == [Item(value, 5), Item(value, 2)]
            && u.lookup == map[value := 1]
  {
    var c := q.(items := q.items[1 := Item(value, 5)]);
    assert ContainerHeap.Down(c, 1, 2) == (c, 1);
    assert Less(c, 1, 0);
    var s := Swap(c, 0, 1);
    assert s.items == [Item(value, 5), Item(value, 2)];
    assert s.lookup == map[value := 1];
    assert ContainerHeap.Up(s, 0) == s;
  }

  /** With a duplicate value, Update is not idempotent: after the Update of
      UpdateSiftsDuplicate, a second Update(v, 5) reaches the newer entry and
      changes it too. */
  lemma UpdateTwiceAfterDuplicatePut<T>(q: Queue<T>, value: T)
    requires q.kind == MaxHeap
    requires q.items == [Item(value, 5), Item(value, 2)] && q.lookup == map[value := 1]
    ensures LookupInRange(q)
    ensures var u := Update(q, value, 5);
            && u.items == [Item(value, 5), Item(value, 5)]
            && u != q
  {
    var c := q.(items := q.items[1 := Item(value, 5)]);
    assert ContainerHeap.Down(c, 1, 2) == (c, 1);
    assert !Less(c, 1, 0);
    assert ContainerHeap.Up(c, 1) == c;
    assert c.items[1] != q.items[1];
  }

  /** From a queue in heap order, when one entry ranks strictly ahead of all
      the others, GetAndPop returns it. */
  lemma PopReturnsSmallest<T>(q: Queue<T>, x: Item<T>, others: multiset<Item<T>>)
    requires HeapOk(q) && multiset(q.items) == others + multiset{x}
    requires forall y :: y in others ==> Rank(q.kind, x.priority) < Rank(q.kind, y.priority)
    ensures Len(q) > 0 && GetAndPop(q).1 == x
  {
    assert x in multiset(q.items);
    PopIsExtremal(q, x);
    var it := GetAndPop(q).1;
    assert it in multiset(q.items);
  }

  /** ... and leaves exactly the others, with the invariants kept. */
  lemma PopSmallest<T>(q: Queue<T>, x: Item<T>, others: multiset<Item<T>>)
    requires Valid(q) && multiset(q.items) == others + multiset{x}
    requires forall y :: y in others ==> Rank(q.kind, x.priority) < Rank(q.kind, y.priority)
    ensures Len(q) > 0 && GetAndPop(q).1 == x
    ensures var s := GetAndPop(q).0;
            && Valid(s) && s.kind == q.kind && multiset(s.items) == others
            && s.lookup.Keys == q.lookup.Keys - {x.value}
  {
    PopReturnsSmallest(q, x, others);
    var s := GetAndPop(q).0;
    assert multiset(s.items) + multiset{x} == others + multiset{x};
    MultisetCancel(multiset(s.items), others, x);
  }

  lemma MultisetCancel<T>(a: multiset<T>, b: multiset<T>, x: T)
    requires a + multiset{x} == b + multiset{x}
    ensures a == b
  {
    assert a == a + multiset{x} - multiset{x};
    assert b == b + multiset{x} - multiset{x};
  }

  /** Under LookupOk, the value of every queued entry has a lookup key. */
  lemma Queued<T>(q: Queue<T>, x: Item<T>)
    requires LookupOk(q) && x in multiset(q.items)
    ensures x.value in q.lookup
  {
    assert x in q.items;
    var k :| 0 <= k < |q.items| && q.items[k] == x;
  }

  /** Putting a value that has no lookup key keeps both invariants and adds
      exactly that key. */
  lemma PutFresh<T>(q: Queue<T>, value: T, priority: int)
    requires Valid(q) && value !in q.lookup
    ensures var r := Put(q, value, priority);
            && Valid(r) && r.kind == q.kind
            && r.lookup.Keys == q.lookup.Keys + {value}
  {
  }

  /** Three Puts of distinct values into an empty queue keep both
      invariants. */
  lemma ThreePutsValid<T>(q0: Queue<T>, a: Item<T>, b: Item<T>, c: Item<T>)
    requires Valid(q0) && Len(q0) == 0
    requires a.value != b.value && a.value != c.value && b.value != c.value
    ensures var q := Put(Put(Put(q0, a.value, a.priority), b.value, b.priority), c.value, c.priority);
            Valid(q) && q.kind == q0.kind
  {
    assert q0.lookup.Keys == {};
    PutFresh(q0, a.value, a.priority);
    var q1 := Put(q0, a.value, a.priority);
    PutFresh(q1, b.value, b.priority);
    var q2 := Put(q1, b.value, b.priority);
    PutFresh(q2, c.value, c.priority);
  }

  /** Three Puts into an empty queue hold exactly the three entries. */
  lemma ThreePutsEntries<T>(q0: Queue<T>, a: Item<T>, b: Item<T>, c: Item<T>)
    requires Len(q0) == 0
    ensures multiset(Put(Put(Put(q0, a.value, a.priority), b.value, b.priority), c.value, c.priority).items)
            == multiset{a} + multiset{b} + multiset{c}
  {
    var q1 := Put(q0, a.value, a.priority);
    PutAdds(q0, a, multiset{});
    var q2 := Put(q1, b.value, b.priority);
    PutAdds(q1, b, multiset{a});
    PutAdds(q2, c, multiset{a} + multiset{b});
  }

  /** Put adds exactly its entry to the queued entries. */
  lemma PutAdds<T>(q: Queue<T>, x: Item<T>, m: multiset<Item<T>>)
    requires multiset(q.items) == m
    ensures multiset(Put(q, x.value, x.priority).items) == m + multiset{x}
  {
  }

  /** A valid min-heap holding (v1, 5) and (v3, 7): GetAndPop returns
      (v1, 5); after Update(v3, 1) on what is left, GetAndPop returns (v3, 1). */
  lemma MinHeapTail<T>(q4: Queue<T>, v1: T, v3: T)
    requires Valid(q4) && q4.kind == MinHeap && v1 != v3
    requires multiset(q4.items) == multiset{Item(v1, 5), Item(v3, 7)}
    ensures Len(q4) > 0 && GetAndPop(q4).1 == Item(v1, 5)
    ensures var q5 := GetAndPop(q4).0;
            && LookupInRange(q5)
            && GetAndPop(Update(q5, v3, 1)).1 == Item(v3, 1)
  {
    var t1, t3 := Item(v1, 5), Item(v3, 7);
    assert multiset(q4.items) == multiset{t3} + multiset{t1};
    PopSmallest(q4, t1, multiset{t3});
    var q5 := GetAndPop(q4).0;
    Queued(q5, t3);
    UpdateSingle(q5, t3, 1);
  }

  /** A valid min-heap holding (v1, 5), (v2, 3) and (v3, 7): GetAndPop
      returns (v2, 3), then (v1, 5); after Update(v3, 1), GetAndPop returns
      (v3, 1). */
  lemma MinHeapPops<T>(q3: Queue<T>, v1: T, v2: T, v3: T)
    requires Valid(q3) && q3.kind == MinHeap && v1 != v3
    requires multiset(q3.items) == multiset{Item(v1, 5)} + multiset{Item(v2, 3)} + multiset{Item(v3, 7)}
    ensures Len(q3) == 3 && GetAndPop(q3).1 == Item(v2, 3)
    ensures var q4 := GetAndPop(q3).0;
            && GetAndPop(q4).1 == Item(v1, 5)
            && var q5 := GetAndPop(q4).0;
               && LookupInRange(q5)
               && GetAndPop(Update(q5, v3, 1)).1 == Item(v3, 1)
  {
    var t1, t2, t3 := Item(v1, 5), Item(v2, 3), Item(v3, 7);
    assert |q3.items| == |multiset(q3.items)|;
    assert multiset(q3.items) == multiset{t1, t3} + multiset{t2};
    PopSmallest(q3, t2, multiset{t1, t3});
    MinHeapTail(GetAndPop(q3).0, v1, v3);
  }

  /** The min-heap example, for any three distinct values: Put(v1, 5),
      Put(v2, 3), Put(v3, 7); GetAndPop returns (v2, 3), then (v1, 5); after
      Update(v3, 1), GetAndPop returns (v3, 1). */
  lemma MinHeapScenario<T>(v1: T, v2: T, v3: T)
    requires v1 != v2 && v1 != v3 && v2 != v3
    ensures var q3 := Put(Put(Put(New<T>(MinHeap), v1, 5), v2, 3), v3, 7);
            && Len(q3) == 3
            && GetAndPop(q3).1 == Item(v2, 3)
            && var q4 := GetAndPop(q3).0;
               && GetAndPop(q4).1 == Item(v1, 5)
               && var q5 := GetAndPop(q4).0;
                  && LookupInRange(q5)
                  && GetAndPop(Update(q5, v3, 1)).1 == Item(v3, 1)
  {
    var t1, t2, t3 := Item(v1, 5), Item(v2, 3), Item(v3, 7);
    ThreePutsValid(New<T>(MinHeap), t1, t2, t3);
    ThreePutsEntries(New<T>(MinHeap), t1, t2, t3);
    MinHeapPops(Put(Put(Put(New<T>(MinHeap), v1, 5), v2, 3), v3, 7), v1, v2, v3);
  }

  /** The min-heap example with the values "task1", "task2", "task3". */
  lemma MinHeapExample()
    ensures var q3 := Put(Put(Put(New<string>(MinHeap), "task1", 5), "task2", 3), "task3", 7);
            GetAndPop(q3).1 == Item("task2", 3)
  {
    MinHeapScenario("task1", "task2", "task3");
  }

  /** Updating the only queued entry leaves just the updated entry, which
      GetAndPop then returns. */
  lemma UpdateSingle<T>(q: Queue<T>, x: Item<T>, priority: int)
    requires Valid(q) && multiset(q.items) == multiset{x} && x.value in q.lookup
    ensures LookupInRange(q)
    ensures Len(Update(q, x.value, priority)) > 0
    ensures GetAndPop(Update(q, x.value, priority)).1 == Item(x.value, priority)
  {
    var r := Update(q, x.value, priority);
    assert q.items[q.lookup[x.value]] in multiset(q.items);
    assert multiset(r.items) == multiset{Item(x.value, priority)};
    var it := GetAndPop(r).1;
    assert it in multiset(r.items);
  }

  /** A valid max-heap holding (a, 1), (b, 9) and (c, 5): GetAndPop
      returns (b, 9). */
  lemma MaxHeapPop<T>(q: Queue<T>, a: T, b: T, c: T)
    requires Valid(q) && q.kind == MaxHeap
    requires multiset(q.items) == multiset{Item(a, 1)} + multiset{Item(b, 9)} + multiset{Item(c, 5)}
    ensures Len(q) == 3 && GetAndPop(q).1 == Item(b, 9)
  {
    assert |q.items| == |multiset(q.items)|;
    assert multiset(q.items) == multiset{Item(a, 1), Item(c, 5)} + multiset{Item(b, 9)};
    PopReturnsSmallest(q, Item(b, 9), multiset{Item(a, 1), Item(c, 5)});
  }

  /** The max-heap example, for any three distinct values: Put(a, 1),
      Put(b, 9), Put(c, 5); GetAndPop returns (b, 9). */
  lemma MaxHeapScenario<T>(a: T, b: T, c: T)
    requires a != b && a != c && b != c
    ensures var q := Put(Put(Put(New<T>(MaxHeap), a, 1), b, 9), c, 5);
            && Len(q) == 3 && GetAndPop(q).1 == Item(b, 9)
  {
    ThreePutsValid(New<T>(MaxHeap), Item(a, 1), Item(b, 9), Item(c, 5));
    ThreePutsEntries(New<T>(MaxHeap), Item(a, 1), Item(b, 9), Item(c, 5));
    MaxHeapPop(Put(Put(Put(New<T>(MaxHeap), a, 1), b, 9), c, 5), a, b, c);
  }

  /** The max-heap example with the values 10, 20, 30. */
  lemma MaxHeapExample()
    ensures GetAndPop(Put(Put(Put(New<int>(MaxHeap), 10, 1), 20, 9), 30, 5)).1 == Item(20, 9)
  {
    MaxHeapScenario(10, 20, 30);
  }

  /** After Clear nothing is queued and a GetAndPop would fail, as Get
      reports. */
  lemma ClearEmpties<T>(q: Queue<T>)
    ensures Len(Clear(q)) == 0 && IsEmpty(Clear(q)) && Get(Clear(q)) == None
    ensures Drain(Clear(q)) == []
  {
  }
}

=== FILE: wrappers.dfy ===
/** The optional result of Get and TryGetAndPop. */
module Wrappers {

  /** Some value, or none (Go's nil pointer result). */
  datatype Option<+T> = None | Some(value: T)
}
